=== FILE: README.md ===
# Number System Converter — a Dafny model

The Number System Converter is a single React page. The user picks one of
four number systems (binary, decimal, hexadecimal, octal) and types a number.
A keystroke whose text is not made of that system's digits is rejected with
an error line. The stored text is converted and shown in all four systems.
A light/dark theme is kept in local storage. When nothing is saved, it is
taken from the system's colour-scheme preference at load.

This project models the logic of `src/App.jsx`:

- **Numerals** (`numerals.dfy`): radix-2..36 numerals over unbounded naturals.
  `Value` reads digits. `Format` writes them as `Number.prototype.toString(r)`
  does. `DigitRun` is the longest leading run of digits. Both round trips are
  proved.
- **JsBuiltins** (`js_builtins.dfy`): the JavaScript built-ins the converter calls.
  - `ParseInt` is the global `parseInt` of section 19.2.5 of the ECMAScript
    language specification: leading white space, one sign, an absent radix
    (modelled as radix 0), the `0x` prefix, and reading only the longest digit
    run. `None` stands for NaN.
  - `ToStringRadix` is `toString(radix)` on integers.
  - `ToUpperCase` is `toUpperCase` on ASCII.
- **Converter** (`converter.dfy`): the four systems, the validation patterns
  (`Test`), `getBase` (`GetBase`) and `convertNumber` (`ConvertNumber`).
  `ConvertNumber` returns the four results together with the error it sets.
- **Input** (`input.dfy`): the page state (`inputType`, `inputValue`, `error`).
  It covers the keystroke handler `handleInputChange`, the selector's
  `onChange`, which switches system without validating again, and replays of
  user actions.
- **Theme** (`theme.dfy`): the theme initialiser, the effect that saves every
  new theme, `toggleTheme`, the colour-scheme change handler, and sessions of
  such events.

Where the code behaves differently from what one might assume, the model follows the code:

- **Integers are unbounded.** The code uses JavaScript numbers.
- **The selector does not validate the stored text again.** So the text can be
  invalid for the newly selected system. `parseInt` then reads only its
  longest valid prefix (`19` in binary is 1), or gives NaN when that prefix is
  empty (`FF` in decimal).
- **`parseInt` ignores everything after the digit run,** not only trailing
  white space.
- **The effect saves the theme on the first render and on every change,**
  including changes driven by the operating system. Once the page has loaded,
  a theme is always saved, so the colour-scheme handler never changes
  anything.
- **Any non-empty saved string is adopted as the theme unchanged.** The toggle
  turns every value other than `dark` into `dark`.

## Model

| member | source | states |
|---|---|---|
| Converter.Test | src/App.jsx:55-60 | A pattern `^[class]*$` accepts a string exactly when every character is in the system's class, so the empty string is always accepted |
| Converter.ClassIsRadixDigits | src/App.jsx:55-70 | Each system's pattern class is exactly the set of digits of the radix `getBase` gives the system's name |
| Converter.HexClassIsWidest | src/App.jsx:55-60 | Every character that some pattern accepts is accepted by the hexadecimal pattern |
| Converter.GetBase | src/App.jsx:62-70 | `getBase` gives 2, 8, 10 or 16. It gives 2, 8 and 16 exactly for `binary`, `octal` and `hexadecimal`, so every other name gets 10 |
| Converter.GetBaseDefault | src/App.jsx:62-70 | `getBase` gives 10 for any name other than the four system names |
| Converter.ConvertNumber | src/App.jsx:72-94 | Empty text gives four empty results and no error. Text that parses to NaN sets the "Invalid input" error and gives four empty results. Otherwise every result is a plain numeral of its own radix (a minus sign only before a non-zero numeral, then digits without redundant leading zeros) that reads back as the parsed integer, and the hexadecimal result has no lower-case letter |
| Converter.Parsed | src/App.jsx:77-80 | The integer `convertNumber` reads is NaN for empty text. For a whole numeral of the radix `getBase` gives the name, it is the numeral's value, with or without the radix argument in the decimal branch |
| Converter.OutputsDenote | src/App.jsx:84-89 | Each of the four results `Outputs` writes for an integer parses back to that integer in its own radix, and the decimal result also parses back without a radix argument |
| Converter.OutputsCanonical | src/App.jsx:84-89 | Every result `Outputs` writes is a non-empty numeral of its own radix: a minus sign only before a non-zero numeral, then radix digits without a redundant leading zero. The hexadecimal result is upper case |
| Converter.ConvertValid | src/App.jsx:72-89 | Non-empty text that passes a system's pattern converts, without error, to the four representations of the number it denotes in that radix |
| Converter.ConvertOutputAgain | src/App.jsx:72-89 | Converting any one result again, in its own system, reproduces all four results |
| Converter.ExampleHexFF | src/App.jsx:72-89 | `FF` in hexadecimal shows 255, 11111111, FF and 377 |
| Converter.ExampleBinary1010 | src/App.jsx:72-89 | `1010` in binary shows 10, 1010, A and 12 |
| Input.HandleInputChange | src/App.jsx:96-106 | A candidate whose every character is in the selected class is stored and clears the error. A candidate with any other character leaves the stored text alone and shows "Invalid <system> number". The system never changes |
| Input.EmptyAlwaysAccepted | src/App.jsx:96-106 | Clearing the input is always accepted and clears the error |
| Input.SelectBase | src/App.jsx:143 | Selecting a system changes only the system: the stored text and error are kept and not validated again |
| Input.ReplayStorable | src/App.jsx:96-106 | Starting from text within the hexadecimal class, every sequence of keystrokes and selections keeps the stored text within that class |
| Input.ReachableStorable | src/App.jsx:96-106 | From the initial state (decimal, empty text), every reachable stored text uses only hexadecimal-class characters |
| Input.KeystrokeKeepsConsistent | src/App.jsx:96-106 | If the stored text is valid for the selected system, it is still valid after any keystroke |
| Input.SelectBreaksConsistency | src/App.jsx:143 | Switching from decimal to binary with `19` stored leaves text that the binary pattern rejects |
| Input.DecimalBranchIsRadix10 | src/App.jsx:77-80 | For any text the page can store, `parseInt` without a radix argument and with radix 10 agree |
| Input.RunIsLongestValidPrefix | src/App.jsx:77-80 | The digits `parseInt` reads in a system's radix are the longest leading run of that system's pattern class. The run is empty exactly when the first character is outside the class |
| Input.PrefixParse | src/App.jsx:72-94 | `Render`, which is `convertNumber(inputValue, inputType)`: for any non-empty text the page can store, it sets an error exactly when its first character is outside the selected class. Otherwise it returns the representations of the value of the longest valid prefix |
| Input.ConsistentConverts | src/App.jsx:72-89 | Stored text valid for the selected system converts to the representations of its full value, without error |
| Input.ExampleLetterInDecimal | src/App.jsx:96-106 | Typing `12a` in decimal keeps `12` and shows "Invalid decimal number" |
| Input.ExampleSwitchToBinary | src/App.jsx:143 | `19` typed in decimal and then switched to binary shows the representations of 1 |
| Input.ExampleSwitchToDecimal | src/App.jsx:77-92 | `FF` typed in hexadecimal and then switched to decimal sets the "Invalid input" error with empty results |
| Numerals.Format | src/App.jsx:84-88 | An integer's radix-r digits are digits of that radix in lower case, with no redundant leading zero. They are `0` exactly for zero |
| Numerals.DigitRun | src/App.jsx:77-80 | The digit run is a prefix of the text, made only of digits, and the character after it is not a digit |
| Numerals.DigitRunOfDigits | src/App.jsx:77-80 | A text is its own digit run exactly when it consists only of digits |
| Numerals.ValueOfFormat | src/App.jsx:84-88 | Reading back the digits `toString(r)` writes for a number gives that number |
| Numerals.FormatOfValue | src/App.jsx:77-88 | A numeral with no redundant leading zero is exactly what formatting its value writes, up to the case of its letters |
| Numerals.ValueOfUpper | src/App.jsx:87 | Upper-casing a numeral does not change the number it denotes |
| JsBuiltins.ParseIntOfNumeral | src/App.jsx:77-80 | A radix-r numeral with or without a minus sign parses in radix r, and in radix 10 also without a radix argument, to its signed value |
| JsBuiltins.ParseIntOfUnsigned | src/App.jsx:77-80 | Text that starts with a digit-like character and has no `0x` prefix parses to the value of its longest digit run, or to NaN when the run is empty. With no radix argument it parses as in radix 10 |
| JsBuiltins.ParseIntOfSigned | src/App.jsx:77-80 | `parseInt` reads an optional leading minus sign and then applies it to the magnitude it reads from the rest |
| JsBuiltins.ParseIntSkipsSpace | src/App.jsx:77-80 | `parseInt` skips leading white space one character at a time without changing the result |
| JsBuiltins.ParseIntOfHexPrefix | src/App.jsx:77-80 | After a `0x` prefix, radix 16 and an absent radix both read the longest hexadecimal digit run that follows, and an empty run is NaN |
| JsBuiltins.ParseIntOfToString | src/App.jsx:84-88 | `parseInt(x.toString(r), r)` is `x` for every integer `x` |
| JsBuiltins.ParseIntOfDecimalString | src/App.jsx:79-85 | `parseInt(x.toString())` without a radix argument is `x` |
| JsBuiltins.ParseIntOfUpperToString | src/App.jsx:87 | Upper-casing `x.toString(16)` does not change what it parses back to |
| JsBuiltins.ToStringRadix | src/App.jsx:84-88 | The text is non-empty and starts with `-` exactly for negative numbers. The digits after the sign are canonical radix-r digits, and no letter is upper case |
| JsBuiltins.ToUpperCase | src/App.jsx:87 | Upper-casing keeps the length and leaves no lower-case letter. It changes only lower-case letters, and each letter keeps its digit value, so `a` becomes `A` |
| Theme.InitialTheme | src/App.jsx:8-26 | Without a window the theme is light. With a window, a non-empty saved value is used as it is. Otherwise the theme is dark exactly when the system prefers dark |
| Theme.Mount | src/App.jsx:8-35 | After page load the initial theme is saved in storage |
| Theme.SetTheme | src/App.jsx:28-35 | Setting a new theme saves it. Setting the current theme changes nothing |
| Theme.Toggled | src/App.jsx:50-53 | The toggle gives `light` exactly after `dark`, and otherwise `dark`. The result always differs from the current theme |
| Theme.ToggleTheme | src/App.jsx:50-53 | A toggle always changes the theme to the toggled one, so the effect always saves it |
| Theme.OnSchemeChange | src/App.jsx:38-44 | A colour-scheme change is ignored while a theme is saved, and adopted otherwise |
| Theme.StepKeepsPersisted | src/App.jsx:28-53 | While the theme is saved, any toggle or scheme change leaves the (new) theme saved |
| Theme.SchemeChangeIgnoredWhenPersisted | src/App.jsx:38-44 | Once the theme is saved, a colour-scheme change does nothing |
| Theme.RunKeepsPersisted | src/App.jsx:28-53 | Every sequence of events keeps the theme saved |
| Theme.OnlyTogglesMatter | src/App.jsx:38-53 | Once the theme is saved, removing every colour-scheme change from a session does not change where it ends |
| Theme.SessionAfterMount | src/App.jsx:8-53 | After page load, the theme stays saved whatever happens, and only toggles affect it |
| Theme.ToggleTwice | src/App.jsx:50-53 | Toggling twice returns exactly `dark` and `light` to themselves; any other saved value becomes `light` |
| Theme.SchemeChangeIsSaved | src/App.jsx:28-44 | With nothing saved, a scheme change to a different theme is saved by the effect |
| Theme.ExampleOsDark | src/App.jsx:8-26 | With nothing saved and a dark system preference, the page loads dark and saves `dark` |
| Theme.ExampleSavedWins | src/App.jsx:8-26 | A saved `light` wins over a dark system preference |
| Theme.SchemeChangeLostAfterMount | src/App.jsx:28-44 | As written, a switch to dark after a light load with nothing saved is ignored. With only the toggle saving, the page turns dark |
| Theme.IntendedFollowsScheme | src/App.jsx:37-44 | With only the toggle saving, while nothing is saved the theme follows the last colour-scheme change, and nothing gets saved |

## Left out

- The JSX markup, the icons and `ResultBox`'s display of an empty result as `0`: presentation only.
- DOM class changes on the document element: output only, and they do not affect any state.
- Registering and removing the media-query listener: the handler is modelled as an event in a session.
- Local storage and `matchMedia`: abstracted to the saved key's value and a boolean preference.
- The `setError` call that `convertNumber` makes during rendering: `ConvertNumber` returns it in its `error` field instead of writing it into `InputState`. React's scheduling and re-renders are not modelled. A state update during render makes React render again, so the NaN branch (for example `FF` switched to decimal) may keep re-rendering instead of showing the message. `Input.PrefixParse` and `Input.ExampleSwitchToDecimal` describe what `convertNumber` returns, not what the page displays.
- Precision of JavaScript numbers: values above 2^53 lose digits, and `toString` switches to exponential notation from 1e21. Integers here are unbounded.
- Overflow to `Infinity`: about 256 or more hexadecimal digits, or 309 or more decimal digits, parse to `Infinity`. The page then shows `Infinity` in three boxes and `INFINITY` in the hexadecimal box. Unbounded integers have no such value.
- Negative zero: `parseInt("-0")` is modelled as 0, which `toString` writes as `0` in JavaScript too.
- The radix argument's conversion to a 32-bit integer: the page only passes 2, 8, 10 or 16.
- JsBuiltins.ToUpperCase: specified for ASCII only, because it only ever receives `toString` output.
- The effects when no window exists (server rendering): `Mount` assumes a browser. `InitialTheme` covers the no-window case.
- Changes to the saved key made by other tabs or by hand: outside the page.
- Converter.GetBase: names inherited from `Object.prototype` (`toString`, `constructor`, `__proto__`, ...) are not modelled. For them `bases[type] || 10` gives a function or an object rather than 10. The page only passes the selector's four names.
- Converter.GetBaseDefault: the same restriction. The lemma's "10 for every other name" does not hold in JavaScript for inherited property names.

## Findings

| source | as written | input that shows it | evidently intended | confidence | as-written member | corrected member |
|---|---|---|---|---|---|---|
| src/App.jsx:28-44 | The effect saves the theme on the first render, so `localStorage.getItem("theme")` is always set when the colour-scheme handler runs. The handler therefore never applies a system change | Nothing saved, system light at load, then the system switches to dark: the page stays light | Follow the system preference until the user picks a theme with the toggle | likely; not executed | Theme.SchemeChangeLostAfterMount | Theme.IntendedFollowsScheme |

=== FILE: converter.dfy ===
/**
  The converter half of the number-system page: the four number systems, the
  pattern each one validates input with, `getBase`, and `convertNumber`, which
  reads the stored text in the selected system and writes it in all four.
 */
module Converter {
  import opened Wrappers
  import opened Numerals
  import opened JsBuiltins

  /** The four number systems the selector offers. */
  datatype Base = Binary | Decimal | Hexadecimal | Octal

  /** The name the page uses for a number system: its `inputType` value and the key of `patterns`. */
  function Name(b: Base): string {
    match b
    case Binary => "binary"
    case Decimal => "decimal"
    case Hexadecimal => "hexadecimal"
    case Octal => "octal"
  }

  /** The character class of the system's pattern: `[0-1]`, `[0-9]`, `[0-9A-Fa-f]` or `[0-7]`. */
  predicate InClass(b: Base, c: char) {
    match b
    case Binary => '0' <= c <= '1'
    case Decimal => '0' <= c <= '9'
    case Hexadecimal => ('0' <= c <= '9') || ('A' <= c <= 'F') || ('a' <= c <= 'f')
    case Octal => '0' <= c <= '7'
  }

  /**
    `patterns[name].test(s)` for the anchored pattern `^[class]*$`, matched one
    character at a time from the left. The empty string always matches.
   */
  function Test(b: Base, s: string): (ok: bool)
    ensures ok <==> forall i :: 0 <= i < |s| ==> InClass(b, s[i])
  {
    |s| == 0 || (InClass(b, s[0]) && Test(b, s[1..]))
  }

  /** `getBase(name)`: the radix of a system name, and 10 for a name that is not one. */
  function GetBase(name: string): (r: Radix)
    ensures r == 2 || r == 8 || r == 10 || r == 16
    ensures r == 2 <==> name == "binary"
    ensures r == 8 <==> name == "octal"
    ensures r == 16 <==> name == "hexadecimal"
  {
    if name == "binary" then 2
    else if name == "decimal" then 10
    else if name == "hexadecimal" then 16
    else if name == "octal" then 8
    else 10
  }

  /** The four strings the page shows, one per system. */
  datatype Results = Results(decimal: string, binary: string, hexadecimal: string, octal: string)

  /** What `convertNumber` returns for empty or unreadable input. */
  const NoResults := Results("", "", "", "")

  /** The message `convertNumber` sets when the stored text does not parse. */
  const InvalidInput := "Invalid input for selected number system"

  /** The outcome of one `convertNumber` call: its results and the error it sets, if it sets one. */
  datatype Conversion = Conversion(results: Results, error: Option<string>)

  /** The result shown for system `b`. */
  function Field(res: Results, b: Base): string {
    match b
    case Binary => res.binary
    case Decimal => res.decimal
    case Hexadecimal => res.hexadecimal
    case Octal => res.octal
  }

  /** Every result, read back in its own system's radix, is `x`. */
  ghost predicate Denotes(res: Results, x: int) {
    forall b: Base :: ParseInt(Field(res, b), GetBase(Name(b))) == Some(x)
  }

  /**
    A radix-`r` numeral: an optional minus sign, then radix-`r` digits without
    redundant leading zeros; zero carries no sign.
   */
  predicate Canonical(s: string, r: Radix) {
    var digits := if |s| > 0 && s[0] == '-' then s[1..] else s;
    AllDigits(digits, r) && NoLeadingZero(digits) && (|s| > 0 && s[0] == '-' ==> digits != "0")
  }

  /** True when `s` has no lower-case letter. */
  predicate NoLowerCase(s: string) {
    forall i :: 0 <= i < |s| ==> !IsLowerLetter(s[i])
  }

  /**
    The four results for a parsed integer `x`: `x.toString()`, `x.toString(2)`,
    `x.toString(16).toUpperCase()` and `x.toString(8)`.
   */
  function Outputs(x: int): Results {
    Results(ToStringRadix(x, 10), ToStringRadix(x, 2), ToUpperCase(ToStringRadix(x, 16)), ToStringRadix(x, 8))
  }

  /**
    The integer `convertNumber` computes from non-empty text: `parseInt(value)`
    without a radix argument for `"decimal"`, `parseInt(value, getBase(fromBase))`
    for any other name; `None` is NaN.
   */
  function Parsed(value: string, fromBase: string): (p: Option<int>)
    ensures value == "" ==> p == None
    ensures |value| > 0 && AllDigits(value, GetBase(fromBase)) ==> p == Some(Value(value, GetBase(fromBase)))
  {
    NumeralParses(value, GetBase(fromBase));
    if fromBase == "decimal" then ParseInt(value, 0) else ParseInt(value, GetBase(fromBase))
  }

  /**
    `convertNumber(value, fromBase)`. Empty text gives four empty results and
    sets no error; text that parses to NaN sets `InvalidInput` and gives four
    empty results; otherwise all four results denote the parsed integer.
   */
  function ConvertNumber(value: string, fromBase: string): (c: Conversion)
    ensures value == "" ==> c == Conversion(NoResults, None)
    ensures c.error.Some? <==> value != "" && Parsed(value, fromBase).None?
    ensures c.error.Some? ==> c.error == Some(InvalidInput) && c.results == NoResults
    ensures c.error.None? ==> (c.results == NoResults <==> value == "")
    ensures c.error.None? && value != "" ==> Denotes(c.results, Parsed(value, fromBase).value)
    ensures c.error.None? && value != "" ==> forall b: Base :: Canonical(Field(c.results, b), GetBase(Name(b)))
    ensures NoLowerCase(c.results.hexadecimal)
  {
    if value == "" then Conversion(NoResults, None)
    else
      match Parsed(value, fromBase)
      case None => Conversion(NoResults, Some(InvalidInput))
      case Some(x) =>
        OutputsDenote(x);
        OutputsCanonical(x);
        Conversion(Outputs(x), None)
  }

  // ---------------------------------------------------------------------------
  // Lemmas
  // ---------------------------------------------------------------------------

  /** A whole numeral parses to its value, in its radix and, for radix 10, also without a radix argument. */
  lemma NumeralParses(value: string, r: Radix)
    ensures value == "" ==> ParseInt(value, r) == None && ParseInt(value, 0) == None
    ensures |value| > 0 && AllDigits(value, r) ==> ParseInt(value, r) == Some(Value(value, r))
    ensures |value| > 0 && AllDigits(value, r) && r == 10 ==> ParseInt(value, 0) == Some(Value(value, r))
  {
    if value == "" {
      assert LeadingSpace(value) == 0;
    } else if AllDigits(value, r) {
      ParseIntOfNumeral(value, false, r);
      assert "" + value == value;
    }
  }

  /**
    All four results for `x` read back as `x` in their own radix, and the decimal
    one also without a radix argument.
   */
  lemma OutputsDenote(x: int)
    ensures Denotes(Outputs(x), x)
    ensures ParseInt(Outputs(x).decimal, 0) == Some(x)
  {
    forall b: Base
      ensures ParseInt(Field(Outputs(x), b), GetBase(Name(b))) == Some(x)
    {
      OutputDenotes(x, b);
    }
    ParseIntOfDecimalString(x);
  }

  /** The result for system `b` reads back as `x` in that system's radix. */
  lemma OutputDenotes(x: int, b: Base)
    ensures ParseInt(Field(Outputs(x), b), GetBase(Name(b))) == Some(x)
  {
    match b
    case Binary => ParseIntOfToString(x, 2);
    case Decimal => ParseIntOfToString(x, 10);
    case Hexadecimal => ParseIntOfUpperToString(x, 16);
    case Octal => ParseIntOfToString(x, 8);
  }

  /**
    None of the four results for `x` is empty or has a redundant leading zero,
    and the hexadecimal one has no lower-case letter.
   */
  lemma OutputsCanonical(x: int)
    ensures forall b: Base :: Field(Outputs(x), b) != "" && Canonical(Field(Outputs(x), b), GetBase(Name(b)))
    ensures NoLowerCase(Outputs(x).hexadecimal)
  {
    UpperKeepsCanonical(ToStringRadix(x, 16));
  }

  /** Upper-casing keeps a numeral canonical: the sign and every `0` stay where they are. */
  lemma UpperKeepsCanonical(s: string)
    requires |s| > 0 && Canonical(s, 16)
    ensures Canonical(ToUpperCase(s), 16)
  {
    var up := ToUpperCase(s);
    assert up[0] == s[0] || IsLowerLetter(s[0]);
    if s[0] == '-' {
      assert up[1..] == Upper(s[1..]);
      UpperKeepsDigits(s[1..], 16);
    } else {
      UpperKeepsDigits(s, 16);
    }
  }

  /** Each pattern's character class is exactly the digit set of the radix `getBase` gives its name. */
  lemma ClassIsRadixDigits(b: Base, c: char)
    ensures InClass(b, c) <==> IsDigit(c, GetBase(Name(b)))
  {
  }

  /** The hexadecimal class contains every other class. */
  lemma HexClassIsWidest(b: Base, c: char)
    requires InClass(b, c)
    ensures InClass(Hexadecimal, c)
  {
  }

  /** `getBase` falls back to radix 10 for any name that is not one of the four. */
  lemma GetBaseDefault(name: string)
    requires forall b: Base :: name != Name(b)
    ensures GetBase(name) == 10
  {
    assert name != Name(Binary) && name != Name(Decimal);
    assert name != Name(Hexadecimal) && name != Name(Octal);
  }

  /**
    Text that is fully valid for a system converts without error to the
    representations of the number it denotes in that system's radix.
   */
  lemma ConvertValid(value: string, b: Base)
    requires value != "" && Test(b, value)
    ensures AllDigits(value, GetBase(Name(b)))
    ensures ConvertNumber(value, Name(b)) == Conversion(Outputs(Value(value, GetBase(Name(b)))), None)
  {
    var r := GetBase(Name(b));
    forall i | 0 <= i < |value|
      ensures IsDigit(value[i], r)
    {
      ClassIsRadixDigits(b, value[i]);
    }
    ParseIntOfNumeral(value, false, r);
    assert "" + value == value;
  }

  /** Converting any of the four results again, in its own system, reproduces all four. */
  lemma ConvertOutputAgain(x: int, b: Base)
    ensures ConvertNumber(Field(Outputs(x), b), Name(b)) == Conversion(Outputs(x), None)
  {
    var res := Outputs(x);
    OutputsDenote(x);
    OutputsCanonical(x);
    assert ParseInt(Field(res, b), GetBase(Name(b))) == Some(x);
  }

  /** Base 16 input `FF` shows 255, 11111111, FF and 377. */
  lemma ExampleHexFF()
    ensures ConvertNumber("FF", "hexadecimal") == Conversion(Results("255", "11111111", "FF", "377"), None)
  {
    ConvertValid("FF", Hexadecimal);
    ValueOfFF();
    OutputsOf255();
  }

  lemma ValueOfFF()
    ensures Value("FF", 16) == 255
  {
    ValueAppend("", 'F', 16);
    assert "" + "F" == "F";
    ValueAppend("F", 'F', 16);
    assert "F" + "F" == "FF";
  }

  /** Base 2 input `1010` shows 10, 1010, A and 12. */
  lemma ExampleBinary1010()
    ensures ConvertNumber("1010", "binary") == Conversion(Results("10", "1010", "A", "12"), None)
  {
    ConvertValid("1010", Binary);
    ValueOf1010();
    OutputsOf10();
  }

  lemma OutputsOf255()
    ensures Outputs(255) == Results("255", "11111111", "FF", "377")
  {
    assert Format(255, 16) == "ff";
    assert ToUpperCase("ff") == "FF";
  }

  lemma OutputsOf10()
    ensures Outputs(10) == Results("10", "1010", "A", "12")
  {
    assert Format(10, 16) == "a";
    assert ToUpperCase("a") == "A";
  }

  lemma ValueOf1010()
    ensures Value("1010", 2) == 10
  {
    ValueAppend("", '1', 2);
    assert "" + "1" == "1";
    ValueAppend("1", '0', 2);
    assert "1" + "0" == "10";
    ValueAppend("10", '1', 2);
    assert "10" + "1" == "101";
    ValueAppend("101", '0', 2);
    assert "101" + "0" == "1010";
  }
}

=== FILE: input.dfy ===
/**
  The input half of the number-system page: the selected system, the stored
  text and the error line, the keystroke handler that validates a candidate
  text before storing it, and the selector, which switches system without
  validating the stored text again.
 */
module Input {
  import opened Wrappers
  import opened Numerals
  import opened JsBuiltins
  import opened Converter

  /** The page's `inputType`, `inputValue` and `error`; an empty `error` shows nothing. */
  datatype InputState = InputState(inputType: Base, inputValue: string, error: string)

  /** The page as it loads: decimal, no text, no error. */
  const Initial := InputState(Decimal, "", "")

  /** The message a rejected keystroke shows for system `b`. */
  function InvalidMessage(b: Base): string {
    "Invalid " + Name(b) + " number"
  }

  /**
    `handleInputChange` with the input's new text `candidate`: the error is
    cleared, then the candidate is stored if every character of it is in the
    selected system's class; otherwise the stored text stays and the error
    names the system.
   */
  function HandleInputChange(st: InputState, candidate: string): (st': InputState)
    ensures st'.inputType == st.inputType
    ensures (forall i :: 0 <= i < |candidate| ==> InClass(st.inputType, candidate[i])) ==>
              st'.inputValue == candidate && st'.error == ""
    ensures (exists i :: 0 <= i < |candidate| && !InClass(st.inputType, candidate[i])) ==>
              st'.inputValue == st.inputValue && st'.error == InvalidMessage(st.inputType)
  {
    var cleared := st.(error := "");
    if !Test(st.inputType, candidate) then cleared.(error := InvalidMessage(st.inputType))
    else cleared.(inputValue := candidate)
  }

  /** The selector's `onChange`: only the system changes; the stored text is not checked again. */
  function SelectBase(st: InputState, b: Base): (st': InputState)
    ensures st'.inputType == b
    ensures st'.inputValue == st.inputValue && st'.error == st.error
  {
    st.(inputType := b)
  }

  /** The conversion the page renders for its current state. */
  function Render(st: InputState): Conversion {
    ConvertNumber(st.inputValue, Name(st.inputType))
  }

  /** One user action on the input controls. */
  datatype UiEvent = Typed(candidate: string) | Selected(b: Base)

  function Apply(st: InputState, e: UiEvent): InputState {
    match e
    case Typed(candidate) => HandleInputChange(st, candidate)
    case Selected(b) => SelectBase(st, b)
  }

  /** The state after a sequence of user actions, first to last. */
  function Replay(st: InputState, events: seq<UiEvent>): InputState
    decreases |events|
  {
    if |events| == 0 then st else Replay(Apply(st, events[0]), events[1..])
  }

  /** Text every pattern could have let through: only characters of the hexadecimal class. */
  predicate Storable(s: string) {
    forall i :: 0 <= i < |s| ==> InClass(Hexadecimal, s[i])
  }

  /** The stored text is valid for the selected system. */
  predicate Consistent(st: InputState) {
    Test(st.inputType, st.inputValue)
  }

  // ---------------------------------------------------------------------------
  // Lemmas
  // ---------------------------------------------------------------------------

  /** The empty text passes every system's pattern. */
  lemma EmptyAlwaysAccepted(st: InputState)
    ensures HandleInputChange(st, "") == st.(inputValue := "", error := "")
  {
  }

  /** Only text in the hexadecimal class can ever be stored, whatever the user does. */
  lemma {:induction false} ReplayStorable(st: InputState, events: seq<UiEvent>)
    requires Storable(st.inputValue)
    ensures Storable(Replay(st, events).inputValue)
    decreases |events|
  {
    if |events| > 0 {
      var next := Apply(st, events[0]);
      assert Storable(next.inputValue) by {
        if next.inputValue != st.inputValue {
          var c := events[0].candidate;
          forall i | 0 <= i < |c|
            ensures InClass(Hexadecimal, c[i])
          {
            HexClassIsWidest(st.inputType, c[i]);
          }
        }
      }
      ReplayStorable(next, events[1..]);
    }
  }

  /** Every state the page reaches holds storable text. */
  lemma ReachableStorable(events: seq<UiEvent>)
    ensures Storable(Replay(Initial, events).inputValue)
  {
    ReplayStorable(Initial, events);
  }

  /** A keystroke keeps the stored text valid for the selected system. */
  lemma KeystrokeKeepsConsistent(st: InputState, candidate: string)
    requires Consistent(st)
    ensures Consistent(HandleInputChange(st, candidate))
  {
  }

  /** Switching from decimal to binary with `19` stored leaves text that binary would reject. */
  lemma SelectBreaksConsistency()
    ensures Consistent(InputState(Decimal, "19", ""))
    ensures !Consistent(SelectBase(InputState(Decimal, "19", ""), Binary))
  {
    assert !InClass(Binary, "19"[1]);
  }

  /** Storable text starts with a digit-like character and never with `0x`. */
  lemma StorableIsUnsigned(s: string)
    requires Storable(s) && s != ""
    ensures IsAlnum(s[0]) && !HasHexPrefix(s)
  {
    if |s| >= 2 {
      assert InClass(Hexadecimal, s[1]);
    }
  }

  /**
    The decimal branch of `convertNumber` reads with `parseInt(value)` and no
    radix argument; on storable text that is the same as reading in radix 10,
    because such text has no white space, no sign and no `0x` prefix.
   */
  lemma DecimalBranchIsRadix10(s: string)
    requires Storable(s)
    ensures ParseInt(s, 0) == ParseInt(s, 10)
  {
    if |s| == 0 {
      assert LeadingSpace(s) == 0;
    } else {
      StorableIsUnsigned(s);
      ParseIntOfUnsigned(s, 10);
    }
  }

  /**
    The digit run that conversion in system `b` reads is the longest leading
    run of characters in `b`'s pattern class, and it is empty exactly when the
    first character is outside that class.
   */
  lemma RunIsLongestValidPrefix(v: string, b: Base)
    ensures var run := DigitRun(v, GetBase(Name(b)));
            && run <= v
            && (forall i :: 0 <= i < |run| ==> InClass(b, run[i]))
            && (|run| < |v| ==> !InClass(b, v[|run|]))
            && (|run| == 0 <==> |v| == 0 || !InClass(b, v[0]))
  {
    var r := GetBase(Name(b));
    var run := DigitRun(v, r);
    forall i | 0 <= i < |run|
      ensures InClass(b, run[i])
    {
      ClassIsRadixDigits(b, run[i]);
    }
    if |run| < |v| {
      ClassIsRadixDigits(b, v[|run|]);
    }
    if |v| > 0 {
      ClassIsRadixDigits(b, v[0]);
    }
    DigitRunEmpty(v, r);
  }

  /**
    Storable text converts in the selected system by reading only its longest
    leading run of characters in that system's class: an empty run, that is a
    first character outside the class, sets `InvalidInput` and gives four empty
    results; otherwise the results are those of the run's value.
   */
  lemma PrefixParse(st: InputState)
    requires Storable(st.inputValue) && st.inputValue != ""
    ensures var v, r := st.inputValue, GetBase(Name(st.inputType));
            var run := DigitRun(v, r);
            && (Render(st).error.Some? <==> !InClass(st.inputType, v[0]))
            && (Render(st).error.Some? ==> Render(st).error == Some(InvalidInput) && Render(st).results == NoResults)
            && (Render(st).error.None? ==> |run| > 0 && Render(st).results == Outputs(Value(run, r)))
  {
    var v, b := st.inputValue, st.inputType;
    var r := GetBase(Name(b));
    RunIsLongestValidPrefix(v, b);
    DecimalBranchIsRadix10(v);
    StorableIsUnsigned(v);
    ParseIntOfUnsigned(v, r);
    assert Parsed(v, Name(b)) == ParseInt(v, r);
  }

  /** Text accepted for the selected system converts to the representations of its full value. */
  lemma ConsistentConverts(st: InputState)
    requires Consistent(st) && st.inputValue != ""
    ensures AllDigits(st.inputValue, GetBase(Name(st.inputType)))
    ensures Render(st) == Conversion(Outputs(Value(st.inputValue, GetBase(Name(st.inputType)))), None)
  {
    ConvertValid(st.inputValue, st.inputType);
  }

  /** Typing `a` after `12` in decimal is rejected with a message naming decimal. */
  lemma ExampleLetterInDecimal()
    ensures HandleInputChange(InputState(Decimal, "12", ""), "12a")
            == InputState(Decimal, "12", "Invalid decimal number")
  {
    assert !InClass(Decimal, "12a"[2]);
  }

  /** `19` typed in decimal and then switched to binary reads as 1. */
  lemma ExampleSwitchToBinary()
    ensures Render(SelectBase(InputState(Decimal, "19", ""), Binary)).results == Outputs(1)
  {
    PrefixParse(SelectBase(InputState(Decimal, "19", ""), Binary));
    BinaryRunOf19();
  }

  lemma BinaryRunOf19()
    ensures DigitRun("19", 2) == "1" && Value("1", 2) == 1
  {
    assert !IsDigit("19"[1], 2);
    ValueAppend("", '1', 2);
    assert "" + "1" == "1";
  }

  /** `FF` typed in hexadecimal and then switched to decimal cannot be read. */
  lemma ExampleSwitchToDecimal()
    ensures Render(SelectBase(InputState(Hexadecimal, "FF", ""), Decimal))
            == Conversion(NoResults, Some(InvalidInput))
  {
    var st := SelectBase(InputState(Hexadecimal, "FF", ""), Decimal);
    PrefixParse(st);
  }
}

=== FILE: js_builtins.dfy ===
/**
  The JavaScript built-ins the converter relies on, over unbounded integers:
  the global `parseInt(string, radix)` of section 19.2.5 of the ECMAScript
  language specification, `Number.prototype.toString(radix)` for integral
  numbers, and `String.prototype.toUpperCase` on the ASCII text `toString` writes.
 */
module JsBuiltins {
  import opened Wrappers
  import opened Numerals

  /**
    The StrWhiteSpaceChar production of ECMAScript: tab, line tabulation, form
    feed, the line terminators, byte-order mark, and every Unicode space separator.
   */
  predicate IsStrWhiteSpace(c: char) {
    || c == '\t' || c == '\n' || c == '\U{000B}' || c == '\U{000C}' || c == '\r'
    || c == ' ' || c == '\U{00A0}' || c == '\U{1680}'
    || ('\U{2000}' <= c <= '\U{200A}')
    || c == '\U{2028}' || c == '\U{2029}' || c == '\U{202F}' || c == '\U{205F}'
    || c == '\U{3000}' || c == '\U{FEFF}'
  }

  /** The number of white-space characters `s` starts with. */
  function LeadingSpace(s: string): (k: nat)
    ensures k <= |s|
    ensures forall i :: 0 <= i < k ==> IsStrWhiteSpace(s[i])
    ensures k < |s| ==> !IsStrWhiteSpace(s[k])
  {
    if |s| > 0 && IsStrWhiteSpace(s[0]) then 1 + LeadingSpace(s[1..]) else 0
  }

  /** True when `s` starts with `0x` or `0X`. */
  predicate HasHexPrefix(s: string) {
    |s| >= 2 && s[0] == '0' && (s[1] == 'x' || s[1] == 'X')
  }

  /**
    `parseInt(s, radix)`, with `None` for NaN. Leading white space and one sign
    are skipped; the rest is read by `ParseMagnitude`. A negative zero is 0.
   */
  function ParseInt(s: string, radix: int): Option<int> {
    var t := s[LeadingSpace(s)..];
    var negative := |t| > 0 && t[0] == '-';
    var u := if |t| > 0 && (t[0] == '-' || t[0] == '+') then t[1..] else t;
    Signed(negative, ParseMagnitude(u, radix))
  }

  /** A parsed magnitude with its sign applied; NaN stays NaN. */
  function Signed(negative: bool, m: Option<nat>): Option<int> {
    match m
    case None => None
    case Some(n) => Some(if negative then -(n as int) else n)
  }

  /**
    The unsigned part of `parseInt`: a radix outside 2 to 36 gives NaN; a radix
    of 0, which is what an absent radix argument converts to, means 10, or 16
    after a `0x` prefix; radix 16 also skips that prefix. Then the longest run of
    digits is read, everything after it is ignored, and an empty run is NaN.
   */
  function ParseMagnitude(u: string, radix: int): Option<nat> {
    if radix != 0 && !(2 <= radix <= 36) then None
    else
      var prefixed := (radix == 0 || radix == 16) && HasHexPrefix(u);
      var r: Radix := if prefixed then 16 else if radix == 0 then 10 else radix;
      var z := DigitRun(if prefixed then u[2..] else u, r);
      if |z| == 0 then None else Some(Value(z, r))
  }

  /**
    `x.toString(r)` for an integral number `x`: a minus sign for a negative
    number, then its radix-`r` digits without leading zeros, letters in lower case.
   */
  function ToStringRadix(x: int, r: Radix): (s: string)
    ensures |s| > 0
    ensures s[0] == '-' <==> x < 0
    ensures var digits := if x < 0 then s[1..] else s;
              AllDigits(digits, r) && NoLeadingZero(digits)
    ensures forall i :: 0 <= i < |s| ==> !IsUpperLetter(s[i])
  {
    if x < 0 then "-" + Format(-x, r) else Format(x, r)
  }

  /** `s.toUpperCase()` for ASCII text. */
  function ToUpperCase(s: string): (t: string)
    ensures |t| == |s|
    ensures forall i :: 0 <= i < |t| ==> !IsLowerLetter(t[i])
    ensures forall i :: 0 <= i < |s| && !IsLowerLetter(s[i]) ==> t[i] == s[i]
    ensures forall i :: 0 <= i < |s| && IsAlnum(s[i]) ==> IsAlnum(t[i]) && DigitValue(t[i]) == DigitValue(s[i])
  {
    Upper(s)
  }

  // ---------------------------------------------------------------------------
  // Lemmas
  // ---------------------------------------------------------------------------

  /** A numeral in radix `r` has no `0x` prefix that radix `r` would skip. */
  lemma MagnitudeOfDigits(z: string, r: Radix)
    requires |z| > 0 && AllDigits(z, r)
    ensures ParseMagnitude(z, r) == Some(Value(z, r))
    ensures r == 10 ==> ParseMagnitude(z, 0) == Some(Value(z, r))
  {
    DigitRunOfDigits(z, r);
    if HasHexPrefix(z) {
      assert IsDigit(z[1], r);
    }
  }

  /** Text that starts with an optional minus sign and then a digit-like character is read sign first. */
  lemma ParseIntOfSigned(z: string, negative: bool, radix: int)
    requires |z| > 0 && IsAlnum(z[0])
    ensures ParseInt((if negative then "-" else "") + z, radix) == Signed(negative, ParseMagnitude(z, radix))
  {
    var s := (if negative then "-" else "") + z;
    assert LeadingSpace(s) == 0;
    if negative {
      assert s[1..] == z;
    } else {
      assert s == z;
    }
  }

  /**
    A radix-`r` numeral, with or without a minus sign, parses in radix `r` to
    the number it denotes; in radix 10 it does so also without a radix argument.
   */
  lemma ParseIntOfNumeral(z: string, negative: bool, r: Radix)
    requires |z| > 0 && AllDigits(z, r)
    ensures ParseInt((if negative then "-" else "") + z, r) == Signed(negative, Some(Value(z, r)))
    ensures r == 10 ==> ParseInt((if negative then "-" else "") + z, 0) == Signed(negative, Some(Value(z, r)))
  {
    MagnitudeOfDigits(z, r);
    ParseIntOfSigned(z, negative, r);
    ParseIntOfSigned(z, negative, 0);
  }

  /**
    Unsigned text that starts with a digit-like character and has no `0x`
    prefix parses to the value of its longest leading run of radix-`r` digits,
    or to NaN when that run is empty. With no radix argument it parses as in
    radix 10.
   */
  lemma ParseIntOfUnsigned(s: string, r: Radix)
    requires |s| > 0 && IsAlnum(s[0]) && !HasHexPrefix(s)
    ensures var run := DigitRun(s, r);
            ParseInt(s, r) == if |run| == 0 then None else Some(Value(run, r))
    ensures ParseInt(s, 0) == ParseInt(s, 10)
  {
    assert LeadingSpace(s) == 0;
  }

  /** Leading white space is skipped one character at a time. */
  lemma ParseIntSkipsSpace(s: string, radix: int)
    requires |s| > 0 && IsStrWhiteSpace(s[0])
    ensures ParseInt(s, radix) == ParseInt(s[1..], radix)
  {
    assert s[LeadingSpace(s)..] == s[1..][LeadingSpace(s[1..])..];
  }

  /**
    After a `0x` or `0X` prefix, radix 16 and an absent radix both read the
    longest run of hexadecimal digits that follows it, and an empty run is NaN.
   */
  lemma ParseIntOfHexPrefix(s: string)
    requires HasHexPrefix(s)
    ensures var run := DigitRun(s[2..], 16);
            && ParseInt(s, 16) == (if |run| == 0 then None else Some(Value(run, 16)))
            && ParseInt(s, 0) == ParseInt(s, 16)
  {
    assert LeadingSpace(s) == 0;
  }

  /** `toString(r)` followed by `parseInt(…, r)` gives the integer back. */
  lemma ParseIntOfToString(x: int, r: Radix)
    ensures ParseInt(ToStringRadix(x, r), r) == Some(x)
  {
    var n: nat := if x < 0 then -x else x;
    assert ToStringRadix(x, r) == (if x < 0 then "-" else "") + Format(n, r);
    ParseIntOfNumeral(Format(n, r), x < 0, r);
    ValueOfFormat(n, r);
  }

  /** The decimal text of an integer also parses back when the radix argument is left out. */
  lemma ParseIntOfDecimalString(x: int)
    ensures ParseInt(ToStringRadix(x, 10), 0) == Some(x)
  {
    var n: nat := if x < 0 then -x else x;
    assert ToStringRadix(x, 10) == (if x < 0 then "-" else "") + Format(n, 10);
    ParseIntOfNumeral(Format(n, 10), x < 0, 10);
    ValueOfFormat(n, 10);
  }

  /** Upper-casing leaves the minus sign alone and upper-cases the digits. */
  lemma UpperOfToString(x: int, r: Radix)
    ensures var n: nat := if x < 0 then -x else x;
            ToUpperCase(ToStringRadix(x, r)) == (if x < 0 then "-" else "") + Upper(Format(n, r))
  {
    var n: nat := if x < 0 then -x else x;
    var f := Format(n, r);
    if x < 0 {
      assert Upper("-" + f) == "-" + Upper(f);
    } else {
      assert "" + Upper(f) == Upper(f);
    }
  }

  /** Upper-casing the radix-`r` text of an integer does not change what it parses to. */
  lemma ParseIntOfUpperToString(x: int, r: Radix)
    ensures ParseInt(ToUpperCase(ToStringRadix(x, r)), r) == Some(x)
  {
    var n: nat := if x < 0 then -x else x;
    var f := Format(n, r);
    UpperOfToString(x, r);
    ValueOfUpper(f, r);
    ParseIntOfNumeral(Upper(f), x < 0, r);
    ValueOfFormat(n, r);
  }
}

=== FILE: numerals.dfy ===
/**
  Positional numerals in radixes 2 to 36, over unbounded natural numbers.

  Digits are `0`-`9` followed by the letters, which count from 10 (`a`/`A`) to 35
  (`z`/`Z`) in either case; formatting writes lower-case letters, as JavaScript's
  `Number.prototype.toString(radix)` does.
 */
module Numerals {

  /** A radix that `parseInt` and `toString` accept. */
  type Radix = r: nat | 2 <= r <= 36 witness 2

  /** True for the characters that are a digit in some radix up to 36. */
  predicate IsAlnum(c: char) {
    ('0' <= c <= '9') || ('a' <= c <= 'z') || ('A' <= c <= 'Z')
  }

  /** The value of an alphanumeric digit character. */
  function DigitValue(c: char): (d: nat)
    requires IsAlnum(c)
    ensures d < 36
    ensures d < 10 <==> '0' <= c <= '9'
  {
    if '0' <= c <= '9' then c as int - '0' as int
    else if 'a' <= c <= 'z' then c as int - 'a' as int + 10
    else c as int - 'A' as int + 10
  }

  /** True when `c` is a digit of radix `r`. */
  predicate IsDigit(c: char, r: nat) {
    IsAlnum(c) && DigitValue(c) < r
  }

  predicate AllDigits(s: string, r: nat) {
    forall i :: 0 <= i < |s| ==> IsDigit(s[i], r)
  }

  predicate IsUpperLetter(c: char) {
    'A' <= c <= 'Z'
  }

  predicate IsLowerLetter(c: char) {
    'a' <= c <= 'z'
  }

  /** A numeral without redundant leading zeros: `"0"` itself, or a first digit other than `0`. */
  predicate NoLeadingZero(s: string) {
    |s| > 0 && (s[0] == '0' ==> |s| == 1)
  }

  /** The number denoted by a string of radix-`r` digits, most significant digit first. */
  function Value(s: string, r: Radix): nat
    requires AllDigits(s, r)
    decreases |s|
  {
    if |s| == 0 then 0
    else Value(s[..|s| - 1], r) * r + DigitValue(s[|s| - 1])
  }

  /** The lower-case digit character of value `d`. */
  function DigitChar(d: nat): (c: char)
    requires d < 36
    ensures IsAlnum(c) && DigitValue(c) == d
    ensures !IsUpperLetter(c)
  {
    if d < 10 then (48 + d) as char else (87 + d) as char
  }

  /** The radix-`r` numeral of `n`: the digits `Number.prototype.toString(r)` writes for it. */
  function Format(n: nat, r: Radix): (s: string)
    ensures AllDigits(s, r)
    ensures NoLeadingZero(s)
    ensures s == "0" <==> n == 0
    ensures forall i :: 0 <= i < |s| ==> !IsUpperLetter(s[i])
    decreases n
  {
    if n < r then [DigitChar(n)]
    else
      DivModFacts(n, r);
      Format(n / r, r) + [DigitChar(n % r)]
  }

  /** The longest leading run of radix-`r` digits of `s`. */
  function DigitRun(s: string, r: Radix): (run: string)
    ensures run <= s
    ensures AllDigits(run, r)
    ensures |run| < |s| ==> !IsDigit(s[|run|], r)
  {
    if |s| == 0 || !IsDigit(s[0], r) then []
    else [s[0]] + DigitRun(s[1..], r)
  }

  /** ASCII lower-casing of one character; every other character is unchanged. */
  function LowerChar(c: char): char {
    if IsUpperLetter(c) then (c as int + 32) as char else c
  }

  /** ASCII upper-casing of one character; every other character is unchanged. */
  function UpperChar(c: char): char {
    if IsLowerLetter(c) then (c as int - 32) as char else c
  }

  function Lower(s: string): (t: string)
    ensures |t| == |s|
  {
    seq(|s|, i requires 0 <= i < |s| => LowerChar(s[i]))
  }

  function Upper(s: string): (t: string)
    ensures |t| == |s|
  {
    seq(|s|, i requires 0 <= i < |s| => UpperChar(s[i]))
  }

  // ---------------------------------------------------------------------------
  // Lemmas
  // ---------------------------------------------------------------------------

  /** Appending a digit multiplies by the radix and adds the digit's value. */
  lemma ValueAppend(p: string, c: char, r: Radix)
    requires AllDigits(p, r) && IsDigit(c, r)
    ensures AllDigits(p + [c], r)
    ensures Value(p + [c], r) == Value(p, r) * r + DigitValue(c)
  {
    assert (p + [c])[..|p|] == p;
  }

  lemma DivMod(n: nat, r: Radix)
    ensures n == (n / r) * r + n % r
  {
  }

  lemma DivLess(n: nat, r: Radix)
    requires n > 0
    ensures n / r < n
  {
  }

  /** Above the radix, the quotient is positive and smaller than the number, and the remainder is a digit. */
  lemma DivModFacts(n: nat, r: Radix)
    requires n >= r
    ensures 0 < n / r < n && n % r < r
  {
    DivLess(n, r);
    DivMod(n, r);
  }

  /** Formatting then reading back in the same radix gives the number again. */
  lemma {:induction false} ValueOfFormat(n: nat, r: Radix)
    ensures Value(Format(n, r), r) == n
    decreases n
  {
    if n < r {
      ValueAppend([], DigitChar(n), r);
      assert [] + [DigitChar(n)] == Format(n, r);
    } else {
      var q, m := n / r, n % r;
      var p := Format(q, r);
      DivLess(n, r);
      ValueOfFormat(q, r);
      assert Format(n, r) == p + [DigitChar(m)];
      ValueAppend(p, DigitChar(m), r);
      DivMod(n, r);
    }
  }

  /** A numeral whose first digit is not zero denotes at least that digit's value. */
  lemma {:induction false} ValueAtLeastLeadingDigit(s: string, r: Radix)
    requires |s| > 0 && AllDigits(s, r)
    ensures Value(s, r) >= DigitValue(s[0])
    decreases |s|
  {
    var p := s[..|s| - 1];
    var v := Value(p, r);
    assert Value(s, r) >= v * r;
    if |s| > 1 {
      assert p[0] == s[0];
      ValueAtLeastLeadingDigit(p, r);
      MulMono(1, r, v);
    }
  }

  lemma MulMono(a: nat, b: nat, r: nat)
    requires a <= b
    ensures a * r <= b * r
  {
  }

  lemma MulCancel(a: nat, b: nat, r: nat)
    requires a * r < b * r
    ensures a < b
  {
    if b <= a {
      MulMono(b, a, r);
    }
  }

  /** Division by the radix splits off the last digit. */
  lemma SplitLastDigit(v: nat, d: nat, r: Radix)
    requires d < r
    ensures (v * r + d) / r == v && (v * r + d) % r == d
  {
    var n := v * r + d;
    var q, m := n / r, n % r;
    assert n == q * r + m;
    assert (v + 1) * r == v * r + r;
    assert (q + 1) * r == q * r + r;
    MulCancel(q, v + 1, r);
    MulCancel(v, q + 1, r);
  }

  /** Formatting a positive number times the radix plus a digit appends that digit. */
  lemma FormatAppend(v: nat, d: nat, r: Radix)
    requires v > 0 && d < r
    ensures Format(v * r + d, r) == Format(v, r) + [DigitChar(d)]
  {
    MulMono(1, v, r);
    SplitLastDigit(v, d, r);
  }

  /** Reading a digit's value back as a lower-case digit character lower-cases it. */
  lemma DigitCharOfValue(c: char)
    requires IsAlnum(c)
    ensures DigitChar(DigitValue(c)) == LowerChar(c)
  {
  }

  /**
    The converse round trip: a numeral without redundant leading zeros is exactly what
    formatting its value writes, up to the case of its letters.
   */
  lemma {:induction false} FormatOfValue(s: string, r: Radix)
    requires AllDigits(s, r) && NoLeadingZero(s)
    ensures Format(Value(s, r), r) == Lower(s)
    decreases |s|
  {
    var p, last := s[..|s| - 1], s[|s| - 1];
    assert s == p + [last];
    if |s| == 1 {
      ValueAppend(p, last, r);
      FormatAppendTo(p, last, r);
    } else {
      assert p[0] == s[0];
      FormatOfValue(p, r);
      FormatAppendTo(p, last, r);
    }
  }

  /** The inductive step of `FormatOfValue`: appending one digit to a numeral that formats back. */
  lemma FormatAppendTo(p: string, c: char, r: Radix)
    requires AllDigits(p, r) && IsDigit(c, r)
    requires |p| == 0 || (p[0] != '0' && Format(Value(p, r), r) == Lower(p))
    ensures Format(Value(p + [c], r), r) == Lower(p + [c])
  {
    DigitCharOfValue(c);
    LowerAppend(p, c);
    if |p| > 0 {
      ValueAtLeastLeadingDigit(p, r);
    }
    FormatOfAppend(p, c, r);
  }

  /**
    Appending a digit to a numeral appends its lower-case digit to the
    formatted value, or gives that digit alone when the numeral denotes zero.
   */
  lemma FormatOfAppend(p: string, c: char, r: Radix)
    requires AllDigits(p, r) && IsDigit(c, r)
    ensures AllDigits(p + [c], r)
    ensures Value(p, r) == 0 ==> Format(Value(p + [c], r), r) == [DigitChar(DigitValue(c))]
    ensures Value(p, r) > 0 ==> Format(Value(p + [c], r), r) == Format(Value(p, r), r) + [DigitChar(DigitValue(c))]
  {
    var v, d := Value(p, r), DigitValue(c);
    ValueAppend(p, c, r);
    if v > 0 {
      FormatAppend(v, d, r);
    } else {
      ZeroTimes(v, r);
    }
  }

  lemma ZeroTimes(v: nat, r: nat)
    requires v == 0
    ensures v * r == 0
  {
  }

  lemma LowerAppend(p: string, c: char)
    ensures Lower(p + [c]) == Lower(p) + [LowerChar(c)]
  {
  }

  /** Upper-casing keeps every digit a digit of the same value. */
  lemma UpperKeepsDigits(s: string, r: Radix)
    requires AllDigits(s, r)
    ensures AllDigits(Upper(s), r)
    ensures forall i :: 0 <= i < |s| ==> DigitValue(Upper(s)[i]) == DigitValue(s[i])
  {
  }

  /** Upper-casing a numeral does not change the number it denotes. */
  lemma {:induction false} ValueOfUpper(s: string, r: Radix)
    requires AllDigits(s, r)
    ensures AllDigits(Upper(s), r)
    ensures Value(Upper(s), r) == Value(s, r)
    decreases |s|
  {
    UpperKeepsDigits(s, r);
    if |s| > 0 {
      var p := s[..|s| - 1];
      assert Upper(s)[..|s| - 1] == Upper(p);
      ValueOfUpper(p, r);
    }
  }

  /** A string made only of digits is its own longest digit run, and conversely. */
  lemma DigitRunOfDigits(s: string, r: Radix)
    ensures DigitRun(s, r) == s <==> AllDigits(s, r)
  {
  }

  /** The digit run is empty exactly when the first character is not a digit. */
  lemma DigitRunEmpty(s: string, r: Radix)
    ensures DigitRun(s, r) == [] <==> (|s| == 0 || !IsDigit(s[0], r))
  {
    var run := DigitRun(s, r);
    if |run| > 0 {
      assert run[0] == s[0];
    }
  }
}

=== FILE: theme.dfy ===
/**
  The theme controller of the number-system page: the theme value, the saved
  `theme` key of local storage, the initialiser, the effect that saves every
  new theme, the toggle button, and the colour-scheme change handler. The
  browser is abstracted to whether a window exists, the saved key, and whether
  the system prefers a dark scheme.
 */
module Theme {
  import opened Wrappers

  const Dark := "dark"
  const Light := "light"

  /** Whether `localStorage.getItem("theme")` is truthy: present and not the empty string. */
  predicate Saved(stored: Option<string>) {
    stored.Some? && stored.value != ""
  }

  /** The theme a colour-scheme preference asks for. */
  function SchemeTheme(prefersDark: bool): string {
    if prefersDark then Dark else Light
  }

  /**
    The initialiser of `theme`: without a window it is light; with one, a saved
    value is adopted as it is, and otherwise the system preference decides.
   */
  function InitialTheme(hasWindow: bool, stored: Option<string>, prefersDark: bool): (t: string)
    ensures t != ""
    ensures !hasWindow ==> t == Light
    ensures hasWindow && Saved(stored) ==> t == stored.value
    ensures hasWindow && !Saved(stored) ==> (t == Dark || t == Light) && (t == Dark <==> prefersDark)
  {
    if !hasWindow then Light
    else if Saved(stored) then stored.value
    else SchemeTheme(prefersDark)
  }

  /** The current theme and the value of the saved `theme` key (`None` when the key is absent). */
  datatype ThemeState = ThemeState(theme: string, stored: Option<string>)

  /** The theme has been written to storage: the state the effect leaves behind. */
  predicate Persisted(s: ThemeState) {
    s.stored == Some(s.theme) && s.theme != ""
  }

  /** Page load in a browser: the initialiser, then the first run of the effect, which saves the theme. */
  function Mount(stored: Option<string>, prefersDark: bool): (s: ThemeState)
    ensures Persisted(s)
    ensures s.theme == InitialTheme(true, stored, prefersDark)
  {
    var t := InitialTheme(true, stored, prefersDark);
    ThemeState(t, Some(t))
  }

  /**
    `setTheme(t)` followed by the effect that depends on `theme`: the effect runs,
    and saves the theme, only when the value actually changes.
   */
  function SetTheme(s: ThemeState, t: string): (s': ThemeState)
    ensures s'.theme == t
    ensures t != s.theme ==> s'.stored == Some(t)
    ensures t == s.theme ==> s' == s
  {
    if t == s.theme then s else ThemeState(t, Some(t))
  }

  /** The theme `toggleTheme` switches to: light after dark, dark after anything else. */
  function Toggled(t: string): (t': string)
    ensures t' == Dark || t' == Light
    ensures t' != t
    ensures t' == Light <==> t == Dark
  {
    if t == Dark then Light else Dark
  }

  /** `toggleTheme`: the theme always changes, so the effect always saves the new one. */
  function ToggleTheme(s: ThemeState): (s': ThemeState)
    ensures s'.theme == Toggled(s.theme) && s'.theme != s.theme
    ensures Persisted(s')
  {
    SetTheme(s, Toggled(s.theme))
  }

  /** `handleChange` for a colour-scheme change: it adopts the scheme only while no theme is saved. */
  function OnSchemeChange(s: ThemeState, matches: bool): (s': ThemeState)
    ensures Saved(s.stored) ==> s' == s
    ensures !Saved(s.stored) ==> s'.theme == SchemeTheme(matches)
  {
    if Saved(s.stored) then s else SetTheme(s, SchemeTheme(matches))
  }

  /** What can happen to the theme after page load. */
  datatype ThemeEvent = Toggle | SchemeChange(matches: bool)

  function Step(s: ThemeState, e: ThemeEvent): ThemeState {
    match e
    case Toggle => ToggleTheme(s)
    case SchemeChange(m) => OnSchemeChange(s, m)
  }

  /** The state after a sequence of events, first to last. */
  function Run(s: ThemeState, events: seq<ThemeEvent>): ThemeState
    decreases |events|
  {
    if |events| == 0 then s else Run(Step(s, events[0]), events[1..])
  }

  /** The toggle events of a sequence, in order. */
  function Toggles(events: seq<ThemeEvent>): (ts: seq<ThemeEvent>)
    ensures |ts| <= |events|
    ensures forall i :: 0 <= i < |ts| ==> ts[i] == Toggle
    decreases |events|
  {
    if |events| == 0 then []
    else if events[0] == Toggle then [Toggle] + Toggles(events[1..])
    else Toggles(events[1..])
  }

  // ---------------------------------------------------------------------------
  // Lemmas
  // ---------------------------------------------------------------------------

  /** Every step keeps the theme saved. */
  lemma StepKeepsPersisted(s: ThemeState, e: ThemeEvent)
    requires Persisted(s)
    ensures Persisted(Step(s, e))
  {
  }

  /** Once the theme is saved, a colour-scheme change does nothing. */
  lemma SchemeChangeIgnoredWhenPersisted(s: ThemeState, matches: bool)
    requires Persisted(s)
    ensures OnSchemeChange(s, matches) == s
  {
  }

  /** After page load the theme stays saved, whatever happens. */
  lemma {:induction false} RunKeepsPersisted(s: ThemeState, events: seq<ThemeEvent>)
    requires Persisted(s)
    ensures Persisted(Run(s, events))
    decreases |events|
  {
    if |events| > 0 {
      StepKeepsPersisted(s, events[0]);
      RunKeepsPersisted(Step(s, events[0]), events[1..]);
    }
  }

  /** After page load only the toggles matter: dropping every colour-scheme change gives the same state. */
  lemma {:induction false} OnlyTogglesMatter(s: ThemeState, events: seq<ThemeEvent>)
    requires Persisted(s)
    ensures Run(s, events) == Run(s, Toggles(events))
    decreases |events|
  {
    if |events| > 0 {
      var rest := events[1..];
      StepKeepsPersisted(s, events[0]);
      OnlyTogglesMatter(Step(s, events[0]), rest);
      if events[0] == Toggle {
        var ts := [Toggle] + Toggles(rest);
        assert ts[0] == Toggle && ts[1..] == Toggles(rest);
      } else {
        SchemeChangeIgnoredWhenPersisted(s, events[0].matches);
      }
    }
  }

  /** A session after page load keeps a saved theme, and the handler never fires. */
  lemma SessionAfterMount(stored: Option<string>, prefersDark: bool, events: seq<ThemeEvent>)
    ensures Persisted(Run(Mount(stored, prefersDark), events))
    ensures Run(Mount(stored, prefersDark), events) == Run(Mount(stored, prefersDark), Toggles(events))
  {
    RunKeepsPersisted(Mount(stored, prefersDark), events);
    OnlyTogglesMatter(Mount(stored, prefersDark), events);
  }

  /** Toggling twice comes back exactly for `dark` and `light`; any other saved value turns into `light`. */
  lemma ToggleTwice(t: string)
    ensures Toggled(Toggled(t)) == t <==> t == Dark || t == Light
    ensures t != Dark && t != Light ==> Toggled(Toggled(t)) == Light
  {
  }

  /**
    While no theme is saved, a colour-scheme change to a different theme is
    saved by the effect, so the next change is ignored.
   */
  lemma SchemeChangeIsSaved(s: ThemeState, matches: bool)
    requires !Saved(s.stored) && SchemeTheme(matches) != s.theme
    ensures Persisted(OnSchemeChange(s, matches))
  {
  }

  /** No saved theme and a dark system preference give the dark theme. */
  lemma ExampleOsDark()
    ensures InitialTheme(true, None, true) == Dark
    ensures Mount(None, true) == ThemeState(Dark, Some(Dark))
  {
  }

  /** A saved light theme wins over a dark system preference. */
  lemma ExampleSavedWins()
    ensures InitialTheme(true, Some(Light), true) == Light
  {
  }

  // ---------------------------------------------------------------------------
  // The evidently intended behaviour: follow the system until the user chooses
  // ---------------------------------------------------------------------------

  /** Page load without the saving effect: the key keeps whatever it held. */
  function IntendedMount(stored: Option<string>, prefersDark: bool): (s: ThemeState)
    ensures s.theme == InitialTheme(true, stored, prefersDark)
    ensures s.stored == stored
  {
    ThemeState(InitialTheme(true, stored, prefersDark), stored)
  }

  /**
    One event when only the toggle button saves the theme: a toggle saves the
    new theme, and a colour-scheme change is adopted, unsaved, while no theme is saved.
   */
  function IntendedStep(s: ThemeState, e: ThemeEvent): ThemeState {
    match e
    case Toggle => ThemeState(Toggled(s.theme), Some(Toggled(s.theme)))
    case SchemeChange(m) => if Saved(s.stored) then s else s.(theme := SchemeTheme(m))
  }

  function IntendedRun(s: ThemeState, events: seq<ThemeEvent>): ThemeState
    decreases |events|
  {
    if |events| == 0 then s else IntendedRun(IntendedStep(s, events[0]), events[1..])
  }

  /**
    With only the toggle saving, a session of colour-scheme changes with no
    theme saved leaves nothing saved and ends on the last change's theme.
   */
  lemma {:induction false} IntendedFollowsScheme(s: ThemeState, events: seq<ThemeEvent>)
    requires !Saved(s.stored) && |events| > 0
    requires forall i :: 0 <= i < |events| ==> events[i].SchemeChange?
    ensures !Saved(IntendedRun(s, events).stored)
    ensures IntendedRun(s, events).theme == SchemeTheme(events[|events| - 1].matches)
    decreases |events|
  {
    var next := IntendedStep(s, events[0]);
    if |events| > 1 {
      var rest := events[1..];
      assert rest[|rest| - 1] == events[|events| - 1];
      IntendedFollowsScheme(next, rest);
    }
  }

  /**
    As written, a system switch to dark after a light page load with nothing
    saved is ignored, because the load itself saved `light`; with only the
    toggle saving, the page turns dark.
   */
  lemma SchemeChangeLostAfterMount()
    ensures Run(Mount(None, false), [SchemeChange(true)]).theme == Light
    ensures IntendedRun(IntendedMount(None, false), [SchemeChange(true)]).theme == Dark
  {
    IntendedFollowsScheme(IntendedMount(None, false), [SchemeChange(true)]);
  }
}

=== FILE: wrappers.dfy ===
/** The optional-value datatype shared by the other modules. */
module Wrappers {

  /** Some value, or none: `parseInt`'s NaN and an unset storage key are both `None`. */
  datatype Option<+T> = None | Some(value: T)
}
